=== FILE: README.md ===
# Vehicle catalog page: fetch, normalise and fall back

This project models the data pipeline of the catalog home page
(`src/app/home/page.jsx`) of the vehicle shop frontend. The page loads two
collections, `marcas` (brands) and `veiculos` (vehicles). Its data logic has
five parts:

- `fetchJsonWithFallback` requests `/api/<resource>` through the same-origin
  rewrite. If that fails, `PUBLIC_BASE` is non-empty and the path starts with
  `/`, it makes exactly one more attempt on `PUBLIC_BASE + path`.
- A non-ok response becomes an error with message `Erro <status>`, carrying the
  status and the body text.
- `parseList` turns whatever JSON comes back into a list. An array is kept as
  it is. For an object, the first array under `data`, `items` or the
  resource's own key is used, in that order. Anything else gives `[]`.
- A bounded, insertion-ordered cache (a JavaScript `Map` of at most 10
  entries) is checked before each fetch and filled after it.
- When either collection fails, the bundled mocks `/mock/marcas.json` and
  `/mock/veiculos.json` replace both lists and a notice is shown. If the
  mocks fail too, the failure is described in the error text. `loading` ends
  `false` in every case.

The render shows each record through JavaScript `||` fallback chains such as
`nome || name || "(sem nome)"`.

The network is an oracle, `Network = string -> Reply`. It maps a URL to a
rejected promise or to a response, which has a status, the outcome of
`res.text()` and the outcome of `res.json()`. Every operation that fetches
returns the URLs it requested, in order. "At most two attempts", "a cached
resource is not requested" and "the mocks are requested only after a failure"
are statements about that list. Component state is the record `LoadData.View`.
`LoadData.LoadData` maps a state, a cache, the oracle and `PUBLIC_BASE` to the
final state, the final cache and the requests made.

Modules, one per concern of the page:

- `Json`: the JSON value datatype, JavaScript truthiness and property reads.
- `Normalize`: `parseList`.
- `BoundedCache`: the entries of a `Map` in insertion order, with
  `get`, `delete` and `set`, plus `cacheSet`.
- `Decimal`: the decimal rendering that the template literals `Erro ${res.status}`
  and `${v.ano}` use.
- `Fetch`: `tryFetch` and `fetchJsonWithFallback`.
- `LoadData`: the outcome logic of `loadData`.
- `Display`: the fallback chains of the render.
- `Wrappers`: `Option` and `Result`.

`parseList` consults only `data`, `items` and the caller's keys;
`Normalize.OtherKeysIgnored` proves that keys such as `rows` or `results`
never change the result.

The page's cache starts as an empty `Map` (line 48) and only ever receives the
keys `marcas` and `veiculos`, so inside the page it holds at most two entries
and the eviction at 10 never runs (`LoadData.PageCacheNeverEvicts`). The
eviction is modelled for a cache of any contents, as `cacheSet` is written.

## Model

| member | source | states |
|---|---|---|
| Normalize.ParseList | src/app/home/page.jsx:33-41 | an array input is returned unchanged; a non-array, non-object input (null, number, string, boolean) gives `[]`; an object gives the array under its first candidate key holding one, or `[]` when none does |
| Normalize.FirstArrayKey | src/app/home/page.jsx:36-38 | the index found is the first candidate holding an array: every earlier candidate holds none; the end index means no candidate holds one |
| Normalize.ParseListObject | src/app/home/page.jsx:35-38 | for an object, whichever candidate is the first to hold an array supplies the result, whatever later candidates hold; the result is `[]` when no candidate holds an array |
| Normalize.DataWins | src/app/home/page.jsx:36-37 | an array under `data` is the result whatever extra keys are passed and whatever they hold |
| Normalize.ItemsBeforeExtraKeys | src/app/home/page.jsx:36-37 | without an array under `data`, an array under `items` wins over every extra key |
| Normalize.OtherKeysIgnored | src/app/home/page.jsx:36 | changing a key outside `data`, `items` and the extra keys (such as `rows` or `results`) never changes the result |
| Normalize.FirstArrayKeyAppend | src/app/home/page.jsx:36-38 | the scan over candidates `a + b` stops at the first array in `a`, and only when `a` holds none goes on to the first array in `b` |
| Normalize.AppendedKeysAreFallbacks | src/app/home/page.jsx:36-38 | extra keys only act as fallbacks: appending keys never changes an array found under the earlier candidates; when those hold none the result is the array under the first appended key holding one, or `[]` |
| BoundedCache.Get | src/app/home/page.jsx:50 | `cacheGet` finds a value exactly when the key is present, and it is the value stored under that key |
| BoundedCache.Delete | src/app/home/page.jsx:53 | after `Map.delete` no entry under the key remains, and the map is never longer |
| BoundedCache.DeleteContents | src/app/home/page.jsx:53 | `Map.delete` keeps exactly the entries under other keys: every remaining entry was in the map under another key, and every entry under another key remains |
| BoundedCache.Put | src/app/home/page.jsx:54 | `Map.set` keeps keys distinct and makes the key map to the value; all other entries keep their values and order; an existing key keeps its position and size; a new key is appended as the newest entry |
| BoundedCache.Evict | src/app/home/page.jsx:53 | below 10 entries nothing is removed; at 10 or more, deleting the first key the map iterates removes exactly the oldest entry and keeps the rest in order |
| BoundedCache.Set | src/app/home/page.jsx:51-55 | after `cacheSet(k, v)` the key maps to `v` and keys stay distinct; a map of at most 10 entries stays at most 10; below 10 no other entry is removed, changed or reordered; at 10 or more the others are those after the oldest, in order, and the oldest key is gone unless it is `k` |
| BoundedCache.SetKeepsOthers | src/app/home/page.jsx:53-54 | a lookup of any other key after `cacheSet` gives what it gave before, except the evicted oldest key, which is gone |
| BoundedCache.SetAddsOnlyItsKey | src/app/home/page.jsx:51-55 | every key after `cacheSet(k, v)` is `k` or a key that was already present |
| BoundedCache.EvictsEvenWhenPresent | src/app/home/page.jsx:53 | the eviction ignores whether the key is already present: updating a present key in a full map still drops the oldest entry and shrinks the map by one |
| Decimal.NatToString | src/app/home/page.jsx:13 | the rendered status is a non-empty string of digits, with no leading zero except for 0 itself |
| Decimal.ValueOfNatToString | src/app/home/page.jsx:13 | reading the rendered digits back gives the number |
| Decimal.NatToStringInjective | src/app/home/page.jsx:13 | different statuses give different messages |
| Decimal.IntToString | src/app/home/page.jsx:130 | a number renders as its decimal digits, preceded by `-` when negative, and the digits read back as its magnitude |
| Fetch.HttpError | src/app/home/page.jsx:11-16 | a non-ok response gives message `Erro ` followed by the status in canonical decimal (no leading zeros), carries the status, and carries the body text or `""` when reading the text failed |
| Fetch.TryFetch | src/app/home/page.jsx:9-19 | the result is a success exactly for an ok (2xx) response whose JSON parses, and it is that JSON; a non-ok response gives the status error; a rejected request gives its reason with no status or body; an ok response whose JSON fails to parse gives the parse error with no status or body |
| Fetch.FetchJsonWithFallback | src/app/home/page.jsx:21-30 | one or two requests; the first is `path`; the second is made exactly when the first failed, `PUBLIC_BASE` is non-empty and `path` starts with `/`, and its URL is `PUBLIC_BASE + path`; the outcome is that of the last request, so a first success is final and a first error propagates unchanged when no retry is allowed |
| LoadData.LoadResource | src/app/home/page.jsx:63-68 | a cached list is used without a request and leaves the cache as it is; otherwise the API path is requested first, and a second request on `PUBLIC_BASE` + path is made exactly when the first fails and `PUBLIC_BASE` is non-empty; the last request decides: on success the list is `parseList(raw, [key])` and the cache is `cacheSet(key, list)` of the one before; on failure the error is the one thrown and the cache is unchanged; the cache stays valid and within 10 entries |
| LoadData.MockJson | src/app/home/page.jsx:82-83 | a mock yields JSON exactly when its request resolves and its body parses, whatever the status, and what it yields is that parsed body |
| LoadData.AsList | src/app/home/page.jsx:85-86 | a mock that is an array is shown as it is; any other value, including an object wrapping an array, is shown as `[]` |
| LoadData.MocksAreNotUnwrapped | src/app/home/page.jsx:85-86 | a mock `{"data": [...]}` is shown as `[]`, while `parseList` of the same value gives the wrapped array |
| LoadData.LoadMocks | src/app/home/page.jsx:81-86 | the mocks yield lists exactly when both requests resolve and both bodies parse, and the lists are those two parsed bodies, each non-array as `[]` |
| LoadData.Recover | src/app/home/page.jsx:78-92 | after a thrown lookup both mocks are requested and an error is always shown, with the cache unchanged; when both mocks parse, the lists are their bodies (non-arrays as `[]`) under the notice `Usando dados de exemplo (API falhou)`; otherwise the lists are untouched and the error describes the thrown error |
| LoadData.LoadData | src/app/home/page.jsx:57-94 | `loading` is false at the end; the cache stays valid and within 10 entries; an error is shown exactly when the brand lookup or the vehicle lookup throws; when it is, the last two requests are the two mocks and the one before them is an API request that failed |
| LoadData.Describe | src/app/home/page.jsx:89 | when the error has neither a message nor a non-zero status the generic `Falha ao carregar dados` is shown; otherwise the text starts with the message, equals it exactly when the body is empty or missing, and otherwise continues with ` - ` and the body |
| LoadData.DescribeHttpError | src/app/home/page.jsx:89 | for a non-ok response the shown text is `Erro <status>`, followed by ` - <body>` when the body is non-empty, and never the generic text |
| LoadData.DescribeStatuslessError | src/app/home/page.jsx:89 | an error without status shows its message, or `Falha ao carregar dados` when the message is empty |
| LoadData.FailureOutcome | src/app/home/page.jsx:62-90 | when a lookup throws, an error is shown and the cache is the one the brand lookup left, so a fetched brand list stays cached; the requests are the brand lookup's, then the vehicle lookup's when the brand lookup succeeded, then the two mock files, nothing else; when both mock responses parse, the lists are those parsed bodies (non-arrays as `[]`) under the notice; otherwise the error describes the last API request, which failed, the brand list is the fetched one when only the vehicle lookup threw (and the previous one otherwise), and the vehicle list keeps its previous value |
| LoadData.NoFailureOutcome | src/app/home/page.jsx:62-77 | when no lookup throws, no error is shown, the lists are the two lookups' results, the cache is the one the vehicle lookup leaves, and the requests are the lookups' requests, none of them a mock |
| LoadData.SuccessOutcome | src/app/home/page.jsx:62-77 | after a load without error the vehicle list shown is the cached one, and so is the brand list while its entry is still cached |
| LoadData.CachedMarcasNotRequested | src/app/home/page.jsx:63-68 | with the brand list cached, no request of the load ends with `/api/marcas`, neither direct nor through `PUBLIC_BASE` |
| LoadData.CachedVeiculosNotRequested | src/app/home/page.jsx:71-76 | with the vehicle list cached and not evicted by the brand insert, no request of the load ends with `/api/veiculos` |
| LoadData.BothCachedNoRequests | src/app/home/page.jsx:62-77 | with both lists cached, the load makes no request, leaves the cache unchanged and shows the cached lists with no error |
| LoadData.FetchedMarcasKept | src/app/home/page.jsx:63-76 | a brand list fetched by a load without error is still cached afterwards, because the vehicle insert can only evict an older entry |
| LoadData.ReloadServedFromCache | src/app/home/page.jsx:57-77 | after a load without error that leaves both lists cached, a second load makes no request and shows the same lists and state |
| LoadData.PageCacheNeverEvicts | src/app/home/page.jsx:48-76 | a cache holding only the page's two keys still holds only them after a load, so it has at most two entries and stays below the eviction threshold |
| LoadData.CachedMarcasEvictedByVeiculos | src/app/home/page.jsx:71-76 | a cached brand list that is the oldest entry of a full cache is evicted by the vehicle insert of the same successful load |
| Display.OrChain | src/app/home/page.jsx:114 | a JavaScript `a \|\| b \|\| ...` chain, grouped to the left, yields the first truthy operand, or the last operand when none is truthy |
| Display.BrandKey | src/app/home/page.jsx:114 | the brand's list key is `id`, else `_id` when `id` is falsy, else `nome` even when that is falsy; it is truthy exactly when one of the three is |
| Display.BrandLabel | src/app/home/page.jsx:114 | the brand label is always truthy: `nome` when truthy, else `name` when truthy, else `(sem nome)` |
| Display.Fallback | src/app/home/page.jsx:128-129 | `first \|\| second \|\| placeholder` is always truthy and follows that precedence, the empty string counting as falsy |
| Display.VehicleKey | src/app/home/page.jsx:127 | the vehicle's list key is `id`, else `_id`, else the text `<marca>-<modelo>-<tail>`, whose tail is `placa`, else `chassi`, else the random number's text; it is always truthy |
| Display.VehicleKeyRandomOnlyWithoutIds | src/app/home/page.jsx:127 | the random number decides the key exactly when `id`, `_id`, `placa` and `chassi` are all falsy: otherwise any two draws give the same key, and without them two different draws give different keys |
| Display.JsString | src/app/home/page.jsx:127-130 | `null` renders as `null`, a boolean as `true` or `false`, a string as itself, a number as its canonical decimal digits (no leading zeros, `-` before the magnitude when negative), an object as `[object Object]`, and an empty array as the empty string |
| Display.JsStringOfArray | src/app/home/page.jsx:127-130 | an array renders as its elements joined by commas, a `null` element as empty text: one element alone, and otherwise the first element, a comma and the rest |
| Display.VehicleTitle | src/app/home/page.jsx:128 | the vehicle title is always truthy: `modelo`, else `nome`, else `(sem modelo)` |
| Display.VehicleBrand | src/app/home/page.jsx:129 | the vehicle's brand is always truthy: `marca`, else `marcaNome`, else `(sem marca)` |
| Display.YearSuffix | src/app/home/page.jsx:130 | the suffix is non-empty exactly when `ano` is truthy; it is then ` - ` followed by `ano` as text, and a positive numeric year reads back from its digits |

## Left out

- Rendering, CSS modules and React hooks (`useState`, `useRef`, `useEffect`) are not modelled. The component state is the record `LoadData.View` and the cache is a parameter, not a `useRef`.
- Real HTTP, request headers and the `options` argument are not modelled. The network is a deterministic function from URL to reply, and every call site passes no options.
- The concurrency of `Promise.all` over the two mocks is not modelled. Both mock requests are always issued, and the combined outcome fails when either fails.
- `Math.random()` in the vehicle list key (line 127) is not modelled: `Display.VehicleKey` takes the text of the drawn number as a parameter.
- Reading `NEXT_PUBLIC_API_BASE_URL` is not modelled. `PUBLIC_BASE` is a string parameter.
- `next.config.mjs` is framework rewrite configuration and is not part of this model.
- JSON numbers are integers here. Floating point, `NaN` and their rendering are not modelled.
- A `null` element in a fetched list makes the render's property reads throw. The model reads it as a value without properties.
- A thrown value that is not an error object (for example a string) is not modelled. Every failure carries a message, an optional status and an optional body.
- Pagination, the detail modal and toasts do not appear in this page's code and are not modelled.
- Display.Fallback: requires a non-empty placeholder, because every call site passes a non-empty literal.

=== FILE: bounded_cache.dfy ===
/** The page's bounded cache (`cacheGet` / `cacheSet`) over a JavaScript `Map`,
    modelled as its entries in insertion order. */
module BoundedCache {
  import opened Wrappers

  /** `cacheSet` evicts once the map holds this many entries. */
  const Capacity: nat := 10

  datatype Entry<K, V> = Entry(key: K, value: V)

  /** A `Map`'s entry list: each key occurs at most once. */
  predicate Valid<K(==), V>(c: seq<Entry<K, V>>)
  {
    forall i, j :: 0 <= i < j < |c| ==> c[i].key != c[j].key
  }

  predicate HasKey<K(==), V>(c: seq<Entry<K, V>>, k: K)
  {
    exists i :: 0 <= i < |c| && c[i].key == k
  }

  /** Position of the first entry under `k`, or `|c|` when there is none. */
  function IndexOf<K(==), V>(c: seq<Entry<K, V>>, k: K): (i: nat)
    ensures i <= |c|
    ensures i < |c| ==> c[i].key == k
    ensures forall j :: 0 <= j < i ==> c[j].key != k
    ensures i < |c| <==> HasKey(c, k)
    decreases |c|
  {
    if |c| == 0 then 0
    else if c[0].key == k then 0
    else 1 + IndexOf(c[1..], k)
  }

  /** `Map.prototype.get`: the value stored under `k`, `None` for `undefined`. */
  function Get<K(==), V>(c: seq<Entry<K, V>>, k: K): (r: Option<V>)
    ensures r.Some? <==> HasKey(c, k)
    ensures Valid(c) ==> forall i :: 0 <= i < |c| && c[i].key == k ==> r == Some(c[i].value)
  {
    var i := IndexOf(c, k);
    if i < |c| then Some(c[i].value) else None
  }

  /** `Map.prototype.delete`: the entry under `k` goes, the others stay in
      their order. */
  function Delete<K(==), V>(c: seq<Entry<K, V>>, k: K): (r: seq<Entry<K, V>>)
    ensures !HasKey(r, k)
    ensures |r| <= |c|
    decreases |c|
  {
    if |c| == 0 then []
    else if c[0].key == k then Delete(c[1..], k)
    else
      var rest := Delete(c[1..], k);
      assert forall i :: 0 < i < |rest| + 1 ==> ([c[0]] + rest)[i] == rest[i - 1];
      [c[0]] + rest
  }

  /** What `Map.delete` keeps: exactly the entries under other keys. (Stated
      as a lemma rather than on `Delete` itself, because the two membership
      facts would otherwise be instantiated for each other without end.) */
  lemma {:induction false} DeleteContents<K, V>(c: seq<Entry<K, V>>, k: K)
    ensures var r := Delete(c, k);
      forall i :: 0 <= i < |r| ==> r[i] in c && r[i].key != k
    ensures var r := Delete(c, k);
      forall i :: 0 <= i < |c| && c[i].key != k ==> c[i] in r
    decreases |c|
  {
    if |c| > 0 {
      DeleteContents(c[1..], k);
      var rest := Delete(c[1..], k);
      var r := Delete(c, k);
      forall i | 0 <= i < |r| ensures r[i] in c {
        if c[0].key == k {
          assert r[i] in c[1..];
        } else if i > 0 {
          assert r[i] == rest[i - 1] && rest[i - 1] in c[1..];
        }
      }
      forall i | 0 <= i < |c| && c[i].key != k ensures c[i] in r {
        if i > 0 {
          assert c[i] == c[1..][i - 1] && c[i] in rest;
        }
      }
    }
  }

  /** `Map.prototype.set`: an existing key keeps its position and takes the
      new value; a new key is appended as the newest entry. */
  function Put<K(==), V>(c: seq<Entry<K, V>>, k: K, v: V): (r: seq<Entry<K, V>>)
    requires Valid(c)
    ensures Valid(r)
    ensures Get(r, k) == Some(v)
    ensures Delete(r, k) == Delete(c, k)
    ensures HasKey(c, k) ==> |r| == |c| && IndexOf(r, k) == IndexOf(c, k)
    ensures !HasKey(c, k) ==> |r| == |c| + 1 && r[|c|] == Entry(k, v)
  {
    var i := IndexOf(c, k);
    if i < |c| then
      var r := c[i := Entry(k, v)];
      assert r[i] == Entry(k, v);
      DeleteReplace(c, i, v);
      r
    else
      var r := c + [Entry(k, v)];
      assert r[|c|] in r;
      DeleteAppend(c, [Entry(k, v)], k);
      assert Delete([Entry(k, v)], k) == [];
      r
  }

  /** The eviction step of `cacheSet`: at `Capacity` or more entries, the key
      the map's iteration yields first is deleted. */
  function Evict<K(==), V>(c: seq<Entry<K, V>>): (r: seq<Entry<K, V>>)
    requires Valid(c)
    ensures Valid(r)
    ensures |c| < Capacity ==> r == c
    ensures |c| >= Capacity ==> r == c[1..]
  {
    if |c| >= Capacity then
      assert !HasKey(c[1..], c[0].key);
      DeleteAbsent(c[1..], c[0].key);
      Delete(c, c[0].key)
    else c
  }

  /** `cacheSet(key, value)`. */
  function Set<K(==), V>(c: seq<Entry<K, V>>, k: K, v: V): (r: seq<Entry<K, V>>)
    requires Valid(c)
    ensures Valid(r)
    ensures Get(r, k) == Some(v)
    ensures |c| <= Capacity ==> |r| <= Capacity
    ensures |c| < Capacity ==> Delete(r, k) == Delete(c, k)
    ensures |c| >= Capacity ==> Delete(r, k) == Delete(c[1..], k)
    ensures |c| >= Capacity && c[0].key != k ==> !HasKey(r, c[0].key)
  {
    var r := Put(Evict(c), k, v);
    assert |c| >= Capacity && c[0].key != k ==> !HasKey(r, c[0].key) by {
      if |c| >= Capacity && c[0].key != k {
        assert !HasKey(c[1..], c[0].key);
        DeleteKeepsOthers(r, k, c[0].key);
        DeleteKeepsOthers(c[1..], k, c[0].key);
      }
    }
    r
  }

  /** Lookups of other keys after `cacheSet(k, v)`: unchanged, except that
      the oldest key is gone when the map was full. */
  lemma SetKeepsOthers<K, V>(c: seq<Entry<K, V>>, k: K, v: V, k': K)
    requires Valid(c) && k' != k
    ensures Get(Set(c, k, v), k') ==
      if |c| >= Capacity && k' == c[0].key then None else Get(c, k')
  {
    var e := Evict(c);
    var r := Put(e, k, v);
    assert r == Set(c, k, v);
    calc {
      Get(r, k');
      { DeleteKeepsOthers(r, k, k'); }
      Get(Delete(r, k), k');
      { assert Delete(r, k) == Delete(e, k); }
      Get(Delete(e, k), k');
      { DeleteKeepsOthers(e, k, k'); }
      Get(e, k');
    }
    if |c| >= Capacity {
      GetTail(c, k');
    }
  }

  /** Dropping the oldest entry keeps the lookups of the other keys. */
  lemma GetTail<K, V>(c: seq<Entry<K, V>>, k: K)
    requires Valid(c) && |c| > 0
    ensures Get(c[1..], k) == if c[0].key == k then None else Get(c, k)
  {
    assert forall i :: 0 <= i < |c| - 1 ==> c[1..][i] == c[i + 1];
  }

  /** `cacheSet` introduces no key other than the one it sets. */
  lemma SetAddsOnlyItsKey<K, V>(c: seq<Entry<K, V>>, k: K, v: V)
    requires Valid(c)
    ensures var r := Set(c, k, v);
      forall i :: 0 <= i < |r| ==> r[i].key == k || HasKey(c, r[i].key)
  {
    var e := Evict(c);
    var r := Put(e, k, v);
    assert r == Set(c, k, v);
    DeleteContents(r, k);
    DeleteContents(e, k);
    forall i | 0 <= i < |r| && r[i].key != k ensures HasKey(c, r[i].key) {
      var d := Delete(r, k);
      assert r[i] in d;
      assert d == Delete(e, k);
      var j :| 0 <= j < |d| && d[j] == r[i];
      assert r[i] in e;
      var m :| 0 <= m < |e| && e[m] == r[i];
      if |c| >= Capacity {
        assert c[m + 1] == r[i];
      } else {
        assert c[m] == r[i];
      }
    }
  }

  /** A map whose keys all come from two values holds at most two entries. */
  lemma AtMostTwoEntries<K, V>(c: seq<Entry<K, V>>, a: K, b: K)
    requires Valid(c)
    requires forall i :: 0 <= i < |c| ==> c[i].key == a || c[i].key == b
    ensures |c| <= 2
  {
    FirstThreeDistinct(c);
  }

  lemma FirstThreeDistinct<K, V>(c: seq<Entry<K, V>>)
    requires Valid(c)
    ensures |c| >= 3 ==> c[0].key != c[1].key && c[0].key != c[2].key && c[1].key != c[2].key
  {
  }

  /** The eviction does not look at the key being set: with a full map, an
      update of a key already present still deletes the oldest entry, so the
      map shrinks by one. */
  lemma EvictsEvenWhenPresent<K, V>(c: seq<Entry<K, V>>, k: K, v: V)
    requires Valid(c) && |c| >= Capacity
    requires HasKey(c, k) && c[0].key != k
    ensures |Set(c, k, v)| == |c| - 1
    ensures !HasKey(Set(c, k, v), c[0].key)
  {
    assert HasKey(c[1..], k) by {
      var i :| 0 <= i < |c| && c[i].key == k;
      assert c[1..][i - 1] == c[i];
    }
  }

  // ---------------------------------------------------------------------------
  // Facts about Delete

  lemma {:induction false} DeleteAbsent<K, V>(c: seq<Entry<K, V>>, k: K)
    requires !HasKey(c, k)
    ensures Delete(c, k) == c
    decreases |c|
  {
    if |c| > 0 {
      assert c[0].key != k;
      assert !HasKey(c[1..], k) by {
        forall i | 0 <= i < |c| - 1 ensures c[1..][i].key != k {
          assert c[1..][i] == c[i + 1];
        }
      }
      DeleteAbsent(c[1..], k);
    }
  }

  lemma {:induction false} DeleteAppend<K, V>(a: seq<Entry<K, V>>, b: seq<Entry<K, V>>, k: K)
    ensures Delete(a + b, k) == Delete(a, k) + Delete(b, k)
    decreases |a|
  {
    if |a| > 0 {
      assert (a + b)[1..] == a[1..] + b;
      DeleteAppend(a[1..], b, k);
    } else {
      assert a + b == b;
    }
  }

  lemma {:induction false} DeleteReplace<K, V>(c: seq<Entry<K, V>>, i: nat, v: V)
    requires i < |c|
    ensures Delete(c[i := Entry(c[i].key, v)], c[i].key) == Delete(c, c[i].key)
    decreases |c|
  {
    var k := c[i].key;
    var d := c[i := Entry(k, v)];
    if i > 0 {
      assert d[1..] == c[1..][i - 1 := Entry(k, v)];
      DeleteReplace(c[1..], i - 1, v);
    }
  }

  /** A lookup passes over a first entry under another key. */
  lemma GetSkip<K, V>(c: seq<Entry<K, V>>, k: K)
    requires |c| > 0 && c[0].key != k
    ensures Get(c, k) == Get(c[1..], k)
  {
    assert IndexOf(c, k) == 1 + IndexOf(c[1..], k);
  }

  /** Deleting one key keeps every other key's lookup. */
  lemma {:induction false} DeleteKeepsOthers<K, V>(c: seq<Entry<K, V>>, k: K, k': K)
    requires k != k'
    ensures Get(Delete(c, k), k') == Get(c, k')
    decreases |c|
  {
    if |c| > 0 {
      var rest := Delete(c[1..], k);
      DeleteKeepsOthers(c[1..], k, k');
      if c[0].key == k {
        assert Delete(c, k) == rest;
        GetSkip(c, k');
      } else if c[0].key != k' {
        var d := [c[0]] + rest;
        assert Delete(c, k) == d && d[1..] == rest;
        GetSkip(d, k');
        GetSkip(c, k');
      }
    }
  }
}

=== FILE: decimal.dfy ===
/** Decimal rendering of integers, as a template literal `${n}` produces it. */
module Decimal {

  predicate IsDigit(c: char)
  {
    '0' <= c <= '9'
  }

  predicate AllDigits(s: string)
  {
    forall i :: 0 <= i < |s| ==> IsDigit(s[i])
  }

  function DigitChar(d: nat): (c: char)
    requires d < 10
    ensures IsDigit(c)
    ensures c as int - '0' as int == d
  {
    ('0' as int + d) as char
  }

  /** The shortest decimal numeral of `n`: digits only, no leading zero. */
  function NatToString(n: nat): (s: string)
    ensures |s| > 0
    ensures AllDigits(s)
    ensures (s[0] == '0') == (n == 0)
    ensures n < 10 <==> |s| == 1
    decreases n
  {
    if n < 10 then [DigitChar(n)] else NatToString(n / 10) + [DigitChar(n % 10)]
  }

  /** The number a numeral denotes (the reading direction). */
  function Value(s: string): nat
    requires AllDigits(s)
    decreases |s|
  {
    if |s| == 0 then 0 else Value(s[..|s| - 1]) * 10 + (s[|s| - 1] as int - '0' as int)
  }

  /** Reading back the rendered numeral gives the number. */
  lemma {:induction false} ValueOfNatToString(n: nat)
    ensures Value(NatToString(n)) == n
    decreases n
  {
    var s := NatToString(n);
    if n >= 10 {
      ValueOfNatToString(n / 10);
      assert s[..|s| - 1] == NatToString(n / 10);
    }
  }

  /** Distinct numbers render differently. */
  lemma NatToStringInjective(m: nat, n: nat)
    requires NatToString(m) == NatToString(n)
    ensures m == n
  {
    ValueOfNatToString(m);
    ValueOfNatToString(n);
  }

  /** `${n}` for an integer: a minus sign before the magnitude when negative. */
  function IntToString(n: int): (s: string)
    ensures n < 0 <==> (|s| > 0 && s[0] == '-')
    ensures n >= 0 ==> s == NatToString(n)
    ensures n < 0 ==> s[1..] == NatToString(-n)
    ensures n >= 0 ==> AllDigits(s) && Value(s) == n
    ensures n < 0 ==> AllDigits(s[1..]) && Value(s[1..]) == -n
  {
    if n < 0 then
      ValueOfNatToString(-n);
      assert ("-" + NatToString(-n))[1..] == NatToString(-n);
      "-" + NatToString(-n)
    else
      ValueOfNatToString(n);
      NatToString(n)
  }
}

=== FILE: display.dfy ===
/** The fallbacks the page renders each brand and vehicle with: JavaScript
    `||` chains over the record's properties, ending in a placeholder. */
module Display {
  import opened Wrappers
  import opened Json
  import Decimal

  const NoName: string := "(sem nome)"
  const NoModel: string := "(sem modelo)"
  const NoBrand: string := "(sem marca)"

  /** `a || b`: `a` when it is truthy, `b` otherwise. */
  function Or(a: Option<Json>, b: Option<Json>): Option<Json>
  {
    if Truthy(a) then a else b
  }

  /** Position of the first truthy operand, or `|ops|` when none is. */
  function FirstTruthy(ops: seq<Option<Json>>): (i: nat)
    ensures i <= |ops|
    ensures i < |ops| ==> Truthy(ops[i])
    ensures forall j :: 0 <= j < i ==> !Truthy(ops[j])
    decreases |ops|
  {
    if |ops| == 0 then 0
    else if Truthy(ops[0]) then 0
    else 1 + FirstTruthy(ops[1..])
  }

  /** `ops[0] || ops[1] || ... || ops[n-1]`, grouped to the left as JavaScript
      evaluates it: the first truthy operand, or the last operand when none
      is truthy. */
  function OrChain(ops: seq<Option<Json>>): (r: Option<Json>)
    requires |ops| > 0
    ensures FirstTruthy(ops) < |ops| ==> r == ops[FirstTruthy(ops)]
    ensures FirstTruthy(ops) == |ops| ==> r == ops[|ops| - 1]
    decreases |ops|
  {
    if |ops| == 1 then ops[0]
    else
      var init := ops[..|ops| - 1];
      assert forall j :: 0 <= j < |init| ==> init[j] == ops[j];
      Or(OrChain(init), ops[|ops| - 1])
  }

  /** `first || second || placeholder`. */
  function Fallback(first: Option<Json>, second: Option<Json>, placeholder: string): (r: Json)
    requires placeholder != ""
    ensures Truthy(Some(r))
    ensures Truthy(first) ==> Some(r) == first
    ensures !Truthy(first) && Truthy(second) ==> Some(r) == second
    ensures !Truthy(first) && !Truthy(second) ==> r == JStr(placeholder)
  {
    var ops := [first, second, Some(JStr(placeholder))];
    assert Truthy(ops[2]);
    OrChain(ops).value
  }

  /** The label of a brand: `m.nome || m.name || "(sem nome)"`. */
  function BrandLabel(m: Json): (r: Json)
    ensures Truthy(Some(r))
    ensures Truthy(Prop(m, "nome")) ==> Some(r) == Prop(m, "nome")
    ensures !Truthy(Prop(m, "nome")) && Truthy(Prop(m, "name")) ==> Some(r) == Prop(m, "name")
    ensures !Truthy(Prop(m, "nome")) && !Truthy(Prop(m, "name")) ==> r == JStr(NoName)
  {
    Fallback(Prop(m, "nome"), Prop(m, "name"), NoName)
  }

  /** The list key of a brand: `m.id || m._id || m.nome`, which has no
      placeholder and so may be falsy itself. */
  function BrandKey(m: Json): (r: Option<Json>)
    ensures Truthy(r) <==> Truthy(Prop(m, "id")) || Truthy(Prop(m, "_id")) || Truthy(Prop(m, "nome"))
    ensures Truthy(Prop(m, "id")) ==> r == Prop(m, "id")
    ensures !Truthy(Prop(m, "id")) && Truthy(Prop(m, "_id")) ==> r == Prop(m, "_id")
    ensures !Truthy(Prop(m, "id")) && !Truthy(Prop(m, "_id")) ==> r == Prop(m, "nome")
  {
    OrChain([Prop(m, "id"), Prop(m, "_id"), Prop(m, "nome")])
  }

  /** `${x}` for a property read: a missing property prints as `undefined`. */
  function Text(o: Option<Json>): (r: string)
    ensures o.None? ==> r == "undefined"
    ensures o.Some? ==> r == JsString(o.value)
  {
    match o
    case None => "undefined"
    case Some(j) => JsString(j)
  }

  /** The template part of a vehicle's list key,
      `${v.marca}-${v.modelo}-${v.placa || v.chassi || Math.random()}`; the
      random number is not modelled, `randomText` stands for its text. */
  function VehicleTemplate(v: Json, randomText: string): string
  {
    var tail :=
      if Truthy(Prop(v, "placa")) then JsString(Prop(v, "placa").value)
      else if Truthy(Prop(v, "chassi")) then JsString(Prop(v, "chassi").value)
      else randomText;
    Text(Prop(v, "marca")) + "-" + Text(Prop(v, "modelo")) + "-" + tail
  }

  /** The list key of a vehicle: `v.id || v._id || <template>`. Unlike a
      brand's key it is never falsy, because the template holds two dashes;
      the template reads the brand and model and then the first of plate,
      chassis and the random text. */
  function VehicleKey(v: Json, randomText: string): (r: Json)
    ensures Truthy(Some(r))
    ensures Truthy(Prop(v, "id")) ==> Some(r) == Prop(v, "id")
    ensures !Truthy(Prop(v, "id")) && Truthy(Prop(v, "_id")) ==> Some(r) == Prop(v, "_id")
    ensures !Truthy(Prop(v, "id")) && !Truthy(Prop(v, "_id")) ==>
      var prefix := Text(Prop(v, "marca")) + "-" + Text(Prop(v, "modelo")) + "-";
      && r.JStr? && |r.s| >= |prefix| && r.s[..|prefix|] == prefix
      && (Truthy(Prop(v, "placa")) ==> r.s[|prefix|..] == JsString(Prop(v, "placa").value))
      && (!Truthy(Prop(v, "placa")) && Truthy(Prop(v, "chassi")) ==>
            r.s[|prefix|..] == JsString(Prop(v, "chassi").value))
      && (!Truthy(Prop(v, "placa")) && !Truthy(Prop(v, "chassi")) ==> r.s[|prefix|..] == randomText)
  {
    var template := VehicleTemplate(v, randomText);
    assert template != "" by {
      assert template[|Text(Prop(v, "marca"))|] == '-';
    }
    OrChain([Prop(v, "id"), Prop(v, "_id"), Some(JStr(template))]).value
  }

  /** The random number decides a vehicle's key exactly when the vehicle has
      none of `id`, `_id`, `placa` and `chassi`: otherwise every draw gives
      the same key, and without them two different draws give two keys. */
  lemma VehicleKeyRandomOnlyWithoutIds(v: Json, a: string, b: string)
    ensures Truthy(Prop(v, "id")) || Truthy(Prop(v, "_id")) ||
            Truthy(Prop(v, "placa")) || Truthy(Prop(v, "chassi")) ==>
      VehicleKey(v, a) == VehicleKey(v, b)
    ensures !Truthy(Prop(v, "id")) && !Truthy(Prop(v, "_id")) &&
            !Truthy(Prop(v, "placa")) && !Truthy(Prop(v, "chassi")) && a != b ==>
      VehicleKey(v, a) != VehicleKey(v, b)
  {
    var prefix := Text(Prop(v, "marca")) + "-" + Text(Prop(v, "modelo")) + "-";
    if !Truthy(Prop(v, "id")) && !Truthy(Prop(v, "_id")) &&
       !Truthy(Prop(v, "placa")) && !Truthy(Prop(v, "chassi")) && a != b {
      assert VehicleKey(v, a).s[|prefix|..] == a;
      assert VehicleKey(v, b).s[|prefix|..] == b;
    }
  }

  /** The title of a vehicle: `v.modelo || v.nome || "(sem modelo)"`. */
  function VehicleTitle(v: Json): (r: Json)
    ensures Truthy(Some(r))
    ensures Truthy(Prop(v, "modelo")) ==> Some(r) == Prop(v, "modelo")
    ensures !Truthy(Prop(v, "modelo")) && Truthy(Prop(v, "nome")) ==> Some(r) == Prop(v, "nome")
    ensures !Truthy(Prop(v, "modelo")) && !Truthy(Prop(v, "nome")) ==> r == JStr(NoModel)
  {
    Fallback(Prop(v, "modelo"), Prop(v, "nome"), NoModel)
  }

  /** The brand shown beside a vehicle: `v.marca || v.marcaNome || "(sem marca)"`. */
  function VehicleBrand(v: Json): (r: Json)
    ensures Truthy(Some(r))
    ensures Truthy(Prop(v, "marca")) ==> Some(r) == Prop(v, "marca")
    ensures !Truthy(Prop(v, "marca")) && Truthy(Prop(v, "marcaNome")) ==> Some(r) == Prop(v, "marcaNome")
    ensures !Truthy(Prop(v, "marca")) && !Truthy(Prop(v, "marcaNome")) ==> r == JStr(NoBrand)
  {
    Fallback(Prop(v, "marca"), Prop(v, "marcaNome"), NoBrand)
  }

  /** `${x}` for a JSON value: arrays join their elements with commas, `null`
      elements as empty text. */
  function JsString(j: Json): (r: string)
    ensures j == JNull ==> r == "null"
    ensures j.JBool? ==> r == if j.b then "true" else "false"
    ensures j.JStr? ==> r == j.s
    ensures j.JNum? && j.n >= 0 ==> r == Decimal.NatToString(j.n)
    ensures j.JNum? && j.n < 0 ==> r == "-" + Decimal.NatToString(-j.n)
    ensures j.JObject? ==> r == "[object Object]"
    ensures j == JArray([]) ==> r == ""
    decreases j, 0
  {
    match j
    case JNull => "null"
    case JBool(b) => if b then "true" else "false"
    case JNum(n) => Decimal.IntToString(n)
    case JStr(s) => s
    case JObject(_) => "[object Object]"
    case JArray(elems) =>
      JoinWithCommas(seq(|elems|, i requires 0 <= i < |elems| => Part(elems[i])))
  }

  /** An array element inside `${x}`: `null` prints as empty text. */
  function Part(e: Json): string
    decreases e, 1
  {
    if e.JNull? then "" else JsString(e)
  }

  /** `Array.prototype.join(",")` over an array of elements: a single element
      prints alone, and a longer array prints its first element, a comma and
      the rest; so `[null]` prints as `""` and `[1, null, 2]` as `"1,,2"`. */
  lemma {:induction false} JsStringOfArray(elems: seq<Json>)
    ensures |elems| == 1 ==> JsString(JArray(elems)) == Part(elems[0])
    ensures |elems| > 1 ==>
      JsString(JArray(elems)) == Part(elems[0]) + "," + JsString(JArray(elems[1..]))
  {
    var parts := seq(|elems|, i requires 0 <= i < |elems| => Part(elems[i]));
    if |elems| > 1 {
      var rest := elems[1..];
      assert parts[1..] == seq(|rest|, i requires 0 <= i < |rest| => Part(rest[i]));
    }
  }

  function JoinWithCommas(parts: seq<string>): string
    decreases |parts|
  {
    if |parts| == 0 then ""
    else if |parts| == 1 then parts[0]
    else parts[0] + "," + JoinWithCommas(parts[1..])
  }

  /** The year suffix of a vehicle: `v.ano ? " - " + v.ano : ""`. */
  function YearSuffix(v: Json): (r: string)
    ensures r != "" <==> Truthy(Prop(v, "ano"))
    ensures Truthy(Prop(v, "ano")) ==> |r| >= 3 && r[..3] == " - " && r[3..] == JsString(Prop(v, "ano").value)
    ensures var ano := Prop(v, "ano");
      ano.Some? && ano.value.JNum? && ano.value.n > 0 ==>
        |r| >= 3 && Decimal.AllDigits(r[3..]) && Decimal.Value(r[3..]) == ano.value.n
  {
    match Prop(v, "ano")
    case Some(year) =>
      if Truthy(Some(year)) then
        var r := " - " + JsString(year);
        assert r[3..] == JsString(year);
        if year.JNum? && year.n > 0 then
          Decimal.ValueOfNatToString(year.n);
          r
        else r
      else ""
    case None => ""
  }
}

=== FILE: fetch.dfy ===
/** `fetchJsonWithFallback` and its inner `tryFetch`. The network is an
    oracle: a function from the requested URL to what `fetch` yields. */
module Fetch {
  import opened Wrappers
  import opened Json
  import Decimal

  /** What `fetch(url)` settles to. `Rejected` is a rejected promise (network
      failure, timeout, abort). `Answered` is a response: its status, what
      `res.text()` resolves to (`None` when it rejects), and what `res.json()`
      resolves to (`Failure` carries the message of the error it rejects with). */
  datatype Reply =
    | Rejected(reason: string)
    | Answered(status: nat, text: Option<string>, json: Result<Json, string>)

  type Network = string -> Reply

  /** The error object `tryFetch` and `fetch` throw: its `message`, and the
      `status` and `body` properties set only for a non-ok response. */
  datatype FetchError = FetchError(message: string, status: Option<nat>, body: Option<string>)

  /** `res.ok`. */
  predicate IsOk(status: nat)
  {
    200 <= status <= 299
  }

  /** The error `tryFetch` builds for a non-ok response: message `Erro <status>`,
      the status, and the body text, or "" when reading it failed. */
  function HttpError(status: nat, text: Option<string>): (e: FetchError)
    ensures e.message == "Erro " + Decimal.NatToString(status)
    ensures e.status == Some(status)
    ensures e.body == Some(if text.Some? then text.value else "")
  {
    FetchError("Erro " + Decimal.NatToString(status), Some(status), Some(match text case Some(t) => t case None => ""))
  }

  /** `tryFetch(u)`: the parsed body of an ok response; otherwise what is
      thrown. */
  function TryFetch(network: Network, url: string): (r: Result<Json, FetchError>)
    ensures r.Success? <==>
      network(url).Answered? && IsOk(network(url).status) && network(url).json.Success?
    ensures r.Success? ==> r.value == network(url).json.value
    ensures network(url).Answered? && !IsOk(network(url).status) ==>
      r == Failure(HttpError(network(url).status, network(url).text))
    ensures network(url).Rejected? ==> r == Failure(FetchError(network(url).reason, None, None))
    ensures network(url).Answered? && IsOk(network(url).status) && network(url).json.Failure? ==>
      r == Failure(FetchError(network(url).json.error, None, None))
  {
    match network(url)
    case Rejected(reason) => Failure(FetchError(reason, None, None))
    case Answered(status, text, json) =>
      if !IsOk(status) then Failure(HttpError(status, text))
      else
        match json
        case Success(j) => Success(j)
        case Failure(message) => Failure(FetchError(message, None, None))
  }

  /** The retry guard: `PUBLIC_BASE` is non-empty and `path` starts with "/". */
  predicate MayRetry(publicBase: string, path: string)
  {
    publicBase != "" && |path| > 0 && path[0] == '/'
  }

  /** What `fetchJsonWithFallback` returns or throws, with the URLs it
      requested, in order. */
  datatype Fetched = Fetched(result: Result<Json, FetchError>, requests: seq<string>)

  /** `fetchJsonWithFallback(path)`: one attempt on `path`; on failure, when
      the guard holds, exactly one more on `PUBLIC_BASE + path`, whose outcome
      is final; otherwise the first error is rethrown. */
  function FetchJsonWithFallback(network: Network, publicBase: string, path: string): (f: Fetched)
    ensures 1 <= |f.requests| <= 2
    ensures f.requests[0] == path
    ensures |f.requests| == 2 <==> TryFetch(network, path).Failure? && MayRetry(publicBase, path)
    ensures |f.requests| == 2 ==> f.requests[1] == publicBase + path
    ensures f.result == TryFetch(network, f.requests[|f.requests| - 1])
  {
    match TryFetch(network, path)
    case Success(j) => Fetched(Success(j), [path])
    case Failure(e) =>
      if MayRetry(publicBase, path) then
        var url := publicBase + path;
        Fetched(TryFetch(network, url), [path, url])
      else Fetched(Failure(e), [path])
  }
}

=== FILE: json.dfy ===
/** The loosely-typed values the page receives from `res.json()`. */
module Json {
  import opened Wrappers

  /** A parsed JSON value. Numbers are integral in this model. */
  datatype Json =
    | JNull
    | JBool(b: bool)
    | JNum(n: int)
    | JStr(s: string)
    | JArray(elems: seq<Json>)
    | JObject(fields: map<string, Json>)

  /** JavaScript truthiness of a property read; `None` is `undefined`. */
  predicate Truthy(v: Option<Json>)
  {
    match v
    case None => false
    case Some(j) =>
      match j
      case JNull => false
      case JBool(b) => b
      case JNum(n) => n != 0
      case JStr(s) => s != ""
      case JArray(_) => true
      case JObject(_) => true
  }

  /** The property read `v[name]`. Only objects carry the properties the page
      reads; strings, numbers, booleans and arrays yield `undefined` for them. */
  function Prop(v: Json, name: string): Option<Json>
  {
    match v
    case JObject(fields) => if name in fields then Some(fields[name]) else None
    case _ => None
  }
}

=== FILE: load_data.dfy ===
/** The outcome logic of the page's `loadData`: each list from the cache or
    the network, the bundled mocks when either fails, and the final state the
    render reads. */
module LoadData {
  import opened Wrappers
  import opened Json
  import Normalize
  import BoundedCache
  import opened Fetch
  import Decimal

  type Cache = seq<BoundedCache.Entry<string, seq<Json>>>

  const MarcasKey: string := "marcas"
  const VeiculosKey: string := "veiculos"
  const MockNotice: string := "Usando dados de exemplo (API falhou)"
  const LoadFailed: string := "Falha ao carregar dados"

  /** The same-origin path of a resource, `/api/<key>`. */
  function ApiPath(key: string): string
  {
    "/api/" + key
  }

  /** The bundled mock of a resource, `/mock/<key>.json`. */
  function MockPath(key: string): string
  {
    "/mock/" + key + ".json"
  }

  /** The component state the render reads. */
  datatype View = View(marcas: seq<Json>, veiculos: seq<Json>, loading: bool, error: Option<string>)

  /** One resource's lookup: the list or the thrown error, the cache after it,
      and the URLs requested. */
  datatype Step = Step(outcome: Result<seq<Json>, FetchError>, cache: Cache, requests: seq<string>)

  /** `let m = cacheGet(key); if (!m) { raw = await fetchJsonWithFallback(...);
      m = parseList(raw, [key]); cacheSet(key, m) }`. Cached values are always
      arrays, which are truthy, so every hit is used. */
  function LoadResource(cache: Cache, network: Network, publicBase: string, key: string): (s: Step)
    requires BoundedCache.Valid(cache)
    ensures BoundedCache.Valid(s.cache)
    ensures |cache| <= BoundedCache.Capacity ==> |s.cache| <= BoundedCache.Capacity
    ensures BoundedCache.HasKey(cache, key) ==>
      s == Step(Success(BoundedCache.Get(cache, key).value), cache, [])
    ensures !BoundedCache.HasKey(cache, key) ==>
      && 1 <= |s.requests| <= 2
      && s.requests[0] == ApiPath(key)
      && (|s.requests| == 2 ==> s.requests[1] == publicBase + ApiPath(key))
    ensures !BoundedCache.HasKey(cache, key) && TryFetch(network, ApiPath(key)).Failure? && publicBase != "" ==>
      |s.requests| == 2
    ensures !BoundedCache.HasKey(cache, key) && |s.requests| == 2 ==>
      TryFetch(network, ApiPath(key)).Failure? && publicBase != ""
    ensures !BoundedCache.HasKey(cache, key) && TryFetch(network, s.requests[|s.requests| - 1]).Success? ==>
      && s.outcome == Success(Normalize.ParseList(TryFetch(network, s.requests[|s.requests| - 1]).value, [key]))
      && s.cache == BoundedCache.Set(cache, key, s.outcome.value)
      && BoundedCache.Get(s.cache, key) == Some(s.outcome.value)
    ensures !BoundedCache.HasKey(cache, key) && TryFetch(network, s.requests[|s.requests| - 1]).Failure? ==>
      s.outcome == Failure(TryFetch(network, s.requests[|s.requests| - 1]).error) && s.cache == cache
  {
    match BoundedCache.Get(cache, key)
    case Some(m) => Step(Success(m), cache, [])
    case None =>
      var f := FetchJsonWithFallback(network, publicBase, ApiPath(key));
      assert MayRetry(publicBase, ApiPath(key)) <==> publicBase != "";
      var last := TryFetch(network, f.requests[|f.requests| - 1]);
      assert f.result == last;
      match f.result
      case Success(raw) =>
        var m := Normalize.ParseList(raw, [key]);
        Step(Success(m), BoundedCache.Set(cache, key, m), f.requests)
      case Failure(e) => Step(Failure(e), cache, f.requests)
  }

  /** `fetch(url).then((r) => r.json())`: the mock path checks no status, so
      any response whose body parses yields that parse. */
  function MockJson(network: Network, url: string): (r: Option<Json>)
    ensures r.Some? <==> network(url).Answered? && network(url).json.Success?
    ensures r.Some? ==> r.value == network(url).json.value
  {
    match network(url)
    case Rejected(_) => None
    case Answered(_, _, json) => if json.Success? then Some(json.value) else None
  }

  /** `Array.isArray(x) ? x : []`: unlike `parseList`, a mock wrapped in an
      object is not unwrapped. */
  function AsList(j: Json): (r: seq<Json>)
    ensures j.JArray? ==> r == j.elems
    ensures !j.JArray? ==> r == []
  {
    if j.JArray? then j.elems else []
  }

  /** A mock `{"data": [...]}` shows as `[]`, where `parseList` would take
      the wrapped array. */
  lemma MocksAreNotUnwrapped(fields: map<string, Json>, keys: seq<string>)
    requires Normalize.ArrayAt(fields, "data")
    ensures AsList(JObject(fields)) == []
    ensures JArray(Normalize.ParseList(JObject(fields), keys)) == fields["data"]
  {
    Normalize.DataWins(fields, keys);
  }

  /** The mock of `key` resolves and its body parses. */
  predicate MockParses(network: Network, key: string)
  {
    network(MockPath(key)).Answered? && network(MockPath(key)).json.Success?
  }

  /** The `Promise.all` over both mocks: both lists, or `None` when either
      request or parse fails. */
  function LoadMocks(network: Network): (r: Option<(seq<Json>, seq<Json>)>)
    ensures r.Some? <==> MockParses(network, MarcasKey) && MockParses(network, VeiculosKey)
    ensures r.Some? ==>
      r.value == (AsList(network(MockPath(MarcasKey)).json.value), AsList(network(MockPath(VeiculosKey)).json.value))
  {
    match (MockJson(network, MockPath(MarcasKey)), MockJson(network, MockPath(VeiculosKey)))
    case (Some(m), Some(v)) => Some((AsList(m), AsList(v)))
    case _ => None
  }

  /** The expression shown when the mocks fail too:
      `message + (body ? " - " + body : "")` when `message` or `status` is
      truthy, the generic text otherwise. */
  function Describe(e: FetchError): (r: string)
    ensures e.message == "" && !(e.status.Some? && e.status.value != 0) ==> r == LoadFailed
    ensures e.message != "" || (e.status.Some? && e.status.value != 0) ==>
      && |e.message| <= |r| && r[..|e.message|] == e.message
      && (r == e.message <==> !(e.body.Some? && e.body.value != ""))
      && (e.body.Some? && e.body.value != "" ==> r[|e.message|..] == " - " + e.body.value)
  {
    if e.message != "" || (e.status.Some? && e.status.value != 0) then
      e.message + (if e.body.Some? && e.body.value != "" then " - " + e.body.value else "")
    else LoadFailed
  }

  /** For a non-ok response the message reads `Erro <status>`, followed by
      ` - <body>` when the body text is non-empty; the generic text never
      appears, since the message is never empty. */
  lemma DescribeHttpError(status: nat, text: Option<string>)
    ensures Describe(HttpError(status, text)) ==
      "Erro " + Decimal.NatToString(status) + (if text.Some? && text.value != "" then " - " + text.value else "")
    ensures Describe(HttpError(status, text)) != LoadFailed
  {
    var e := HttpError(status, text);
    assert e.message == "Erro " + Decimal.NatToString(status);
    assert e.message[0] == 'E' && LoadFailed[0] == 'F';
  }

  /** For a rejected request or an unparsable body the error has no status:
      its message is shown, or the generic text when it is empty. */
  lemma DescribeStatuslessError(message: string)
    ensures Describe(FetchError(message, None, None)) == if message == "" then LoadFailed else message
  {
  }

  /** The final state, the cache, and every URL requested, in order. */
  datatype Loaded = Loaded(view: View, cache: Cache, requests: seq<string>)

  /** The `catch` branch: the mocks replace both lists, or the error is
      described; `finally` clears `loading`. */
  function Recover(view: View, e: FetchError, cache: Cache, network: Network, requests: seq<string>): (r: Loaded)
    ensures !r.view.loading && r.view.error.Some? && r.cache == cache
    ensures r.requests == requests + [MockPath(MarcasKey), MockPath(VeiculosKey)]
    ensures MockParses(network, MarcasKey) && MockParses(network, VeiculosKey) ==>
      r.view == view.(marcas := AsList(network(MockPath(MarcasKey)).json.value),
                      veiculos := AsList(network(MockPath(VeiculosKey)).json.value),
                      loading := false, error := Some(MockNotice))
    ensures !(MockParses(network, MarcasKey) && MockParses(network, VeiculosKey)) ==>
      r.view == view.(loading := false, error := Some(Describe(e)))
  {
    var requests' := requests + [MockPath(MarcasKey), MockPath(VeiculosKey)];
    match LoadMocks(network)
    case Some((m, v)) =>
      Loaded(view.(marcas := m, veiculos := v, error := Some(MockNotice), loading := false), cache, requests')
    case None =>
      Loaded(view.(error := Some(Describe(e)), loading := false), cache, requests')
  }

  /** Some lookup of the load throws: the brand lookup, or the vehicle lookup
      that follows a successful brand lookup. */
  predicate LookupFails(cache: Cache, network: Network, publicBase: string)
    requires BoundedCache.Valid(cache)
  {
    var ms := LoadResource(cache, network, publicBase, MarcasKey);
    || ms.outcome.Failure?
    || LoadResource(ms.cache, network, publicBase, VeiculosKey).outcome.Failure?
  }

  /** `loadData()` from a given state and cache. */
  function LoadData(view: View, cache: Cache, network: Network, publicBase: string): (r: Loaded)
    requires BoundedCache.Valid(cache)
    ensures !r.view.loading
    ensures BoundedCache.Valid(r.cache)
    ensures |cache| <= BoundedCache.Capacity ==> |r.cache| <= BoundedCache.Capacity
    ensures r.view.error.Some? ==>
      && |r.requests| >= 3
      && r.requests[|r.requests| - 2..] == [MockPath(MarcasKey), MockPath(VeiculosKey)]
      && TryFetch(network, r.requests[|r.requests| - 3]).Failure?
    ensures r.view.error.Some? <==> LookupFails(cache, network, publicBase)
  {
    var start := view.(loading := true, error := None);
    var ms := LoadResource(cache, network, publicBase, MarcasKey);
    match ms.outcome
    case Failure(e) =>
      var r := Recover(start, e, ms.cache, network, ms.requests);
      assert r.requests[|r.requests| - 3] == ms.requests[|ms.requests| - 1];
      r
    case Success(m) =>
      var withMarcas := start.(marcas := m);
      var vs := LoadResource(ms.cache, network, publicBase, VeiculosKey);
      var requests := ms.requests + vs.requests;
      match vs.outcome
      case Failure(e) =>
        var r := Recover(withMarcas, e, vs.cache, network, requests);
        assert r.requests[|r.requests| - 3] == vs.requests[|vs.requests| - 1];
        r
      case Success(v) => Loaded(withMarcas.(veiculos := v, loading := false), vs.cache, requests)
  }

  /** When a lookup throws, an error is always shown, and the cache is the
      one the brand lookup left: a fetched brand list stays cached. When both
      mocks load, both lists are the mocks' parsed bodies (non-arrays as `[]`)
      under the notice. Otherwise the error describes the failing API request,
      the brand list is the fetched one when only the vehicle lookup threw,
      and the vehicle list keeps its previous value. */
  lemma FailureOutcome(view: View, cache: Cache, network: Network, publicBase: string)
    requires BoundedCache.Valid(cache)
    ensures var r := LoadData(view, cache, network, publicBase);
      var ms := LoadResource(cache, network, publicBase, MarcasKey);
      var vs := LoadResource(ms.cache, network, publicBase, VeiculosKey);
      LookupFails(cache, network, publicBase) ==>
        && r.view.error.Some?
        && r.cache == ms.cache
        && (!(MockParses(network, MarcasKey) && MockParses(network, VeiculosKey)) ==>
              r.view.marcas == if ms.outcome.Success? then ms.outcome.value else view.marcas)
        && (MockParses(network, MarcasKey) && MockParses(network, VeiculosKey) ==>
              r.view == view.(marcas := AsList(network(MockPath(MarcasKey)).json.value),
                              veiculos := AsList(network(MockPath(VeiculosKey)).json.value),
                              loading := false, error := Some(MockNotice)))
        && (!(MockParses(network, MarcasKey) && MockParses(network, VeiculosKey)) ==>
              && r.view.error == Some(Describe(TryFetch(network, r.requests[|r.requests| - 3]).error))
              && r.view.veiculos == view.veiculos)
        && r.requests ==
             ms.requests + (if ms.outcome.Success? then vs.requests else []) + [MockPath(MarcasKey), MockPath(VeiculosKey)]
  {
    BrandFailureShown(view, cache, network, publicBase);
    VehicleFailureShown(view, cache, network, publicBase);
  }

  /** What a load whose lookup `ms` (or the lookup after it) threw ends with:
      an error, the cache `ms` left, and either both mocks' lists or the
      error of the last API request, with the brand list set only when `ms`
      succeeded. */
  predicate ShowsFailure(view: View, network: Network, ms: Step, tried: seq<string>, r: Loaded)
  {
    && r.view.error.Some?
    && r.cache == ms.cache
    && (MockParses(network, MarcasKey) && MockParses(network, VeiculosKey) ==>
          r.view == view.(marcas := AsList(network(MockPath(MarcasKey)).json.value),
                          veiculos := AsList(network(MockPath(VeiculosKey)).json.value),
                          loading := false, error := Some(MockNotice)))
    && (!(MockParses(network, MarcasKey) && MockParses(network, VeiculosKey)) ==>
          && r.view.marcas == (if ms.outcome.Success? then ms.outcome.value else view.marcas)
          && |r.requests| >= 3
          && TryFetch(network, r.requests[|r.requests| - 3]).Failure?
          && r.view.error == Some(Describe(TryFetch(network, r.requests[|r.requests| - 3]).error))
          && r.view.veiculos == view.veiculos)
    && r.requests == tried + [MockPath(MarcasKey), MockPath(VeiculosKey)]
  }

  lemma BrandFailureShown(view: View, cache: Cache, network: Network, publicBase: string)
    requires BoundedCache.Valid(cache)
    ensures var ms := LoadResource(cache, network, publicBase, MarcasKey);
      ms.outcome.Failure? ==> ShowsFailure(view, network, ms, ms.requests, LoadData(view, cache, network, publicBase))
  {
    var ms := LoadResource(cache, network, publicBase, MarcasKey);
    if ms.outcome.Failure? {
      BrandLookupFailed(view, cache, network, publicBase);
      RecoverShowsFailure(view, network, ms, ms.outcome.error, ms.requests);
    }
  }

  lemma VehicleFailureShown(view: View, cache: Cache, network: Network, publicBase: string)
    requires BoundedCache.Valid(cache)
    ensures var ms := LoadResource(cache, network, publicBase, MarcasKey);
      var vs := LoadResource(ms.cache, network, publicBase, VeiculosKey);
      ms.outcome.Success? && vs.outcome.Failure? ==>
        ShowsFailure(view, network, ms, ms.requests + vs.requests, LoadData(view, cache, network, publicBase))
  {
    var ms := LoadResource(cache, network, publicBase, MarcasKey);
    var vs := LoadResource(ms.cache, network, publicBase, VeiculosKey);
    if ms.outcome.Success? && vs.outcome.Failure? {
      var requests := ms.requests + vs.requests;
      var start := view.(loading := true, error := None, marcas := ms.outcome.value);
      var rec := Recover(start, vs.outcome.error, ms.cache, network, requests);
      VehicleLookupFailed(view, cache, network, publicBase);
      assert LoadData(view, cache, network, publicBase) == rec;
      LookupFailure(ms.cache, network, publicBase, VeiculosKey);
      assert requests[|requests| - 1] == vs.requests[|vs.requests| - 1];
      RecoverShowsFailure(view, network, ms, vs.outcome.error, requests);
      assert ShowsFailure(view, network, ms, requests, rec);
    }
  }

  /** A lookup that throws requested at least one URL, threw the error of
      its last request, and left the cache as it was. */
  lemma LookupFailure(cache: Cache, network: Network, publicBase: string, key: string)
    requires BoundedCache.Valid(cache)
    ensures var s := LoadResource(cache, network, publicBase, key);
      s.outcome.Failure? ==>
        && |s.requests| >= 1
        && TryFetch(network, s.requests[|s.requests| - 1]) == Failure(s.outcome.error)
        && s.cache == cache
  {
  }

  /** The `catch` branch entered with the error `e` of the last request shows
      the failure the way `ShowsFailure` describes, the brand list being set
      exactly when the brand lookup `ms` succeeded. */
  lemma RecoverShowsFailure(view: View, network: Network, ms: Step, e: FetchError, requests: seq<string>)
    requires |requests| >= 1 && TryFetch(network, requests[|requests| - 1]) == Failure(e)
    ensures ShowsFailure(view, network, ms, requests,
      Recover(view.(loading := true, error := None,
                    marcas := if ms.outcome.Success? then ms.outcome.value else view.marcas),
              e, ms.cache, network, requests))
  {
    var start := view.(loading := true, error := None,
                       marcas := if ms.outcome.Success? then ms.outcome.value else view.marcas);
    RecoverAfterLastRequest(start, e, ms.cache, network, requests);
  }

  /** A throwing brand lookup goes straight to the `catch` branch. */
  lemma BrandLookupFailed(view: View, cache: Cache, network: Network, publicBase: string)
    requires BoundedCache.Valid(cache)
    ensures var ms := LoadResource(cache, network, publicBase, MarcasKey);
      ms.outcome.Failure? ==>
        LoadData(view, cache, network, publicBase) ==
          Recover(view.(loading := true, error := None, marcas := view.marcas), ms.outcome.error, ms.cache,
                  network, ms.requests)
  {
  }

  /** A throwing vehicle lookup reaches the `catch` branch after `setMarcas`
      and `cacheSet` of the brand list have run. */
  lemma VehicleLookupFailed(view: View, cache: Cache, network: Network, publicBase: string)
    requires BoundedCache.Valid(cache)
    ensures var ms := LoadResource(cache, network, publicBase, MarcasKey);
      var vs := LoadResource(ms.cache, network, publicBase, VeiculosKey);
      ms.outcome.Success? && vs.outcome.Failure? ==>
        LoadData(view, cache, network, publicBase) ==
          Recover(view.(loading := true, error := None, marcas := ms.outcome.value), vs.outcome.error,
                  ms.cache, network, ms.requests + vs.requests)
  {
  }

  /** After `Recover`, the request three from the end is the last request
      made before it. */
  lemma RecoverAfterLastRequest(view: View, e: FetchError, cache: Cache, network: Network, requests: seq<string>)
    requires |requests| >= 1
    ensures var r := Recover(view, e, cache, network, requests);
      |r.requests| >= 3 && r.requests[|r.requests| - 3] == requests[|requests| - 1]
  {
    var r := Recover(view, e, cache, network, requests);
    assert r.requests[|r.requests| - 3] == (requests + [MockPath(MarcasKey), MockPath(VeiculosKey)])[|requests| - 1];
  }

  /** Without a failing lookup: no error, the lists are the two lookups'
      results, the cache is the one the vehicle lookup leaves, and only the
      lookups' requests are made, none of them a mock. */
  lemma NoFailureOutcome(view: View, cache: Cache, network: Network, publicBase: string)
    requires BoundedCache.Valid(cache)
    ensures var r := LoadData(view, cache, network, publicBase);
      var ms := LoadResource(cache, network, publicBase, MarcasKey);
      var vs := LoadResource(ms.cache, network, publicBase, VeiculosKey);
      !LookupFails(cache, network, publicBase) ==>
        && r.view == view.(marcas := ms.outcome.value, veiculos := vs.outcome.value, loading := false, error := None)
        && r.cache == vs.cache
        && r.requests == ms.requests + vs.requests
        && forall i :: 0 <= i < |r.requests| ==>
             r.requests[i] != MockPath(MarcasKey) && r.requests[i] != MockPath(VeiculosKey)
  {
    var r := LoadData(view, cache, network, publicBase);
    var ms := LoadResource(cache, network, publicBase, MarcasKey);
    var vs := LoadResource(ms.cache, network, publicBase, VeiculosKey);
    if !LookupFails(cache, network, publicBase) {
      StepRequestsEndWith(cache, network, publicBase, MarcasKey);
      StepRequestsEndWith(ms.cache, network, publicBase, VeiculosKey);
      NoMockAmong(ms.requests, vs.requests);
    }
  }

  /** API requests are never mock requests: `.json` ends differently from
      both API paths. */
  lemma NoMockAmong(brands: seq<string>, vehicles: seq<string>)
    requires forall i :: 0 <= i < |brands| ==> EndsWith(brands[i], ApiPath(MarcasKey))
    requires forall i :: 0 <= i < |vehicles| ==> EndsWith(vehicles[i], ApiPath(VeiculosKey))
    ensures forall i :: 0 <= i < |brands + vehicles| ==>
      (brands + vehicles)[i] != MockPath(MarcasKey) && (brands + vehicles)[i] != MockPath(VeiculosKey)
  {
    forall i | 0 <= i < |brands + vehicles|
      ensures (brands + vehicles)[i] != MockPath(MarcasKey) && (brands + vehicles)[i] != MockPath(VeiculosKey)
    {
      var u := (brands + vehicles)[i];
      if i < |brands| {
        assert u == brands[i];
        EndsWithLastTwo(u, ApiPath(MarcasKey));
      } else {
        assert u == vehicles[i - |brands|];
        EndsWithLastTwo(u, ApiPath(VeiculosKey));
      }
    }
  }

  /** After a load without error, the vehicle list is the cached one, and so
      is the brand list as long as its entry is still in the cache. */
  lemma SuccessOutcome(view: View, cache: Cache, network: Network, publicBase: string)
    requires BoundedCache.Valid(cache)
    ensures var r := LoadData(view, cache, network, publicBase);
      r.view.error.None? ==>
        && BoundedCache.Get(r.cache, VeiculosKey) == Some(r.view.veiculos)
        && (BoundedCache.HasKey(r.cache, MarcasKey) ==> BoundedCache.Get(r.cache, MarcasKey) == Some(r.view.marcas))
  {
    NoFailureOutcome(view, cache, network, publicBase);
    if !LookupFails(cache, network, publicBase) {
      var ms := LoadResource(cache, network, publicBase, MarcasKey);
      var vs := LoadResource(ms.cache, network, publicBase, VeiculosKey);
      StoredAfterBothLookups(ms.cache, vs.cache, ms.outcome.value, vs.outcome.value);
    }
  }

  /** The cache after the two lookups of a load without error: the vehicle
      list is stored, and the brand list too unless the vehicle insert
      evicted it. */
  lemma StoredAfterBothLookups(afterMarcas: Cache, afterVeiculos: Cache, m: seq<Json>, v: seq<Json>)
    requires BoundedCache.Valid(afterMarcas)
    requires BoundedCache.Get(afterMarcas, MarcasKey) == Some(m)
    requires || (afterVeiculos == afterMarcas && BoundedCache.Get(afterMarcas, VeiculosKey) == Some(v))
             || afterVeiculos == BoundedCache.Set(afterMarcas, VeiculosKey, v)
    ensures BoundedCache.Get(afterVeiculos, VeiculosKey) == Some(v)
    ensures BoundedCache.HasKey(afterVeiculos, MarcasKey) ==> BoundedCache.Get(afterVeiculos, MarcasKey) == Some(m)
  {
    if afterVeiculos != afterMarcas {
      BoundedCache.SetKeepsOthers(afterMarcas, VeiculosKey, v, MarcasKey);
    }
  }

  /** `u` ends with `suffix`. */
  predicate EndsWith(u: string, suffix: string)
  {
    |suffix| <= |u| && u[|u| - |suffix|..] == suffix
  }

  /** A URL ending with `suffix` shares its last two characters. */
  lemma EndsWithLastTwo(u: string, suffix: string)
    requires |suffix| >= 2
    ensures EndsWith(u, suffix) ==> u[|u| - 1] == suffix[|suffix| - 1] && u[|u| - 2] == suffix[|suffix| - 2]
  {
    if EndsWith(u, suffix) {
      assert u[|u| - |suffix|..][|suffix| - 1] == u[|u| - 1];
      assert u[|u| - |suffix|..][|suffix| - 2] == u[|u| - 2];
    }
  }

  /** The URLs `fetchJsonWithFallback` requests for a resource that is not
      cached all end with its API path. */
  lemma StepRequestsEndWith(cache: Cache, network: Network, publicBase: string, key: string)
    requires BoundedCache.Valid(cache)
    ensures var s := LoadResource(cache, network, publicBase, key);
      forall i :: 0 <= i < |s.requests| ==> EndsWith(s.requests[i], ApiPath(key))
  {
    var s := LoadResource(cache, network, publicBase, key);
    if !BoundedCache.HasKey(cache, key) {
      FallbackRequestsEndWith(s.requests, publicBase, ApiPath(key));
    }
  }

  /** The one or two URLs of `fetchJsonWithFallback(path)` end with `path`. */
  lemma FallbackRequestsEndWith(requests: seq<string>, publicBase: string, path: string)
    requires 1 <= |requests| <= 2 && requests[0] == path
    requires |requests| == 2 ==> requests[1] == publicBase + path
    ensures forall i :: 0 <= i < |requests| ==> EndsWith(requests[i], path)
  {
    assert path[|path| - |path|..] == path;
    if |requests| == 2 {
      assert (publicBase + path)[|publicBase + path| - |path|..] == path;
    }
  }

  /** A brand list found in the cache is not requested: no URL of the load
      ends with `/api/marcas`, whether direct or through `PUBLIC_BASE`. */
  lemma CachedMarcasNotRequested(view: View, cache: Cache, network: Network, publicBase: string)
    requires BoundedCache.Valid(cache) && BoundedCache.HasKey(cache, MarcasKey)
    ensures var r := LoadData(view, cache, network, publicBase);
      forall i :: 0 <= i < |r.requests| ==> !EndsWith(r.requests[i], ApiPath(MarcasKey))
  {
    var vs := LoadResource(cache, network, publicBase, VeiculosKey);
    StepRequestsEndWith(cache, network, publicBase, VeiculosKey);
    RequestsWhenMarcasCached(view, cache, network, publicBase);
    OtherResourceRequests(LoadData(view, cache, network, publicBase).requests, vs.requests, MarcasKey, VeiculosKey);
  }

  /** Requests of the other resource, possibly followed by the two mocks, hold
      no URL ending with this resource's API path, when the two keys differ
      in one of their last two characters and the key does not end like
      `.json`. */
  lemma OtherResourceRequests(requests: seq<string>, other: seq<string>, key: string, otherKey: string)
    requires |key| >= 2 && |otherKey| >= 2
    requires key[|key| - 1] != otherKey[|otherKey| - 1] || key[|key| - 2] != otherKey[|otherKey| - 2]
    requires key[|key| - 1] != 'n'
    requires forall i :: 0 <= i < |other| ==> EndsWith(other[i], ApiPath(otherKey))
    requires requests == other || requests == other + [MockPath(MarcasKey), MockPath(VeiculosKey)]
    ensures forall i :: 0 <= i < |requests| ==> !EndsWith(requests[i], ApiPath(key))
  {
    var p := ApiPath(key);
    var q := ApiPath(otherKey);
    assert p[|p| - 1] == key[|key| - 1] && p[|p| - 2] == key[|key| - 2];
    assert q[|q| - 1] == otherKey[|otherKey| - 1] && q[|q| - 2] == otherKey[|otherKey| - 2];
    forall i | 0 <= i < |requests| ensures !EndsWith(requests[i], p) {
      var u := requests[i];
      EndsWithLastTwo(u, p);
      if i < |other| {
        assert u == other[i];
        EndsWithLastTwo(u, q);
      } else {
        assert u == MockPath(MarcasKey) || u == MockPath(VeiculosKey);
        assert u[|u| - 1] == 'n';
      }
    }
  }

  /** With the brand list cached, only the vehicle lookup and possibly the
      mocks make requests. */
  lemma RequestsWhenMarcasCached(view: View, cache: Cache, network: Network, publicBase: string)
    requires BoundedCache.Valid(cache) && BoundedCache.HasKey(cache, MarcasKey)
    ensures var r := LoadData(view, cache, network, publicBase);
      var vs := LoadResource(cache, network, publicBase, VeiculosKey);
      r.requests == vs.requests || r.requests == vs.requests + [MockPath(MarcasKey), MockPath(VeiculosKey)]
  {
    var ms := LoadResource(cache, network, publicBase, MarcasKey);
    assert ms.requests == [] && ms.cache == cache;
    assert ms.requests + LoadResource(cache, network, publicBase, VeiculosKey).requests
      == LoadResource(cache, network, publicBase, VeiculosKey).requests;
  }

  /** The vehicle entry survives the brand lookup unless that lookup inserts
      into a full cache whose oldest entry is the vehicle list. */
  predicate VeiculosSurvive(cache: Cache)
  {
    || BoundedCache.HasKey(cache, MarcasKey)
    || |cache| < BoundedCache.Capacity
    || cache[0].key != VeiculosKey
  }

  lemma VeiculosKeptByMarcasStep(cache: Cache, network: Network, publicBase: string)
    requires BoundedCache.Valid(cache) && BoundedCache.HasKey(cache, VeiculosKey) && VeiculosSurvive(cache)
    ensures BoundedCache.HasKey(LoadResource(cache, network, publicBase, MarcasKey).cache, VeiculosKey)
  {
    var ms := LoadResource(cache, network, publicBase, MarcasKey);
    if !BoundedCache.HasKey(cache, MarcasKey) && ms.outcome.Success? {
      BoundedCache.SetKeepsOthers(cache, MarcasKey, ms.outcome.value, VeiculosKey);
    }
  }

  /** With the vehicle list cached (and not evicted by the brand insert), only
      the brand lookup and possibly the mocks make requests. */
  lemma RequestsWhenVeiculosCached(view: View, cache: Cache, network: Network, publicBase: string)
    requires BoundedCache.Valid(cache) && BoundedCache.HasKey(cache, VeiculosKey) && VeiculosSurvive(cache)
    ensures var r := LoadData(view, cache, network, publicBase);
      var ms := LoadResource(cache, network, publicBase, MarcasKey);
      r.requests == ms.requests || r.requests == ms.requests + [MockPath(MarcasKey), MockPath(VeiculosKey)]
  {
    var ms := LoadResource(cache, network, publicBase, MarcasKey);
    VeiculosKeptByMarcasStep(cache, network, publicBase);
    if ms.outcome.Success? {
      var vs := LoadResource(ms.cache, network, publicBase, VeiculosKey);
      assert vs.requests == [];
      assert ms.requests + vs.requests == ms.requests;
    }
  }

  /** A cached vehicle list that the brand insert does not evict is not
      requested: no URL of the load ends with `/api/veiculos`. */
  lemma CachedVeiculosNotRequested(view: View, cache: Cache, network: Network, publicBase: string)
    requires BoundedCache.Valid(cache) && BoundedCache.HasKey(cache, VeiculosKey) && VeiculosSurvive(cache)
    ensures var r := LoadData(view, cache, network, publicBase);
      forall i :: 0 <= i < |r.requests| ==> !EndsWith(r.requests[i], ApiPath(VeiculosKey))
  {
    var ms := LoadResource(cache, network, publicBase, MarcasKey);
    StepRequestsEndWith(cache, network, publicBase, MarcasKey);
    RequestsWhenVeiculosCached(view, cache, network, publicBase);
    OtherResourceRequests(LoadData(view, cache, network, publicBase).requests, ms.requests, VeiculosKey, MarcasKey);
  }

  /** With both lists cached, the load requests nothing, leaves the cache as
      it is and shows the cached lists without error. */
  lemma BothCachedNoRequests(view: View, cache: Cache, network: Network, publicBase: string)
    requires BoundedCache.Valid(cache)
    requires BoundedCache.HasKey(cache, MarcasKey) && BoundedCache.HasKey(cache, VeiculosKey)
    ensures LoadData(view, cache, network, publicBase) ==
      Loaded(view.(marcas := BoundedCache.Get(cache, MarcasKey).value,
                   veiculos := BoundedCache.Get(cache, VeiculosKey).value,
                   loading := false, error := None),
             cache, [])
  {
  }

  /** A brand list fetched by a successful load stays in the cache: it is the
      newest entry when the vehicle insert evicts the oldest one. */
  lemma FetchedMarcasKept(view: View, cache: Cache, network: Network, publicBase: string)
    requires BoundedCache.Valid(cache) && !BoundedCache.HasKey(cache, MarcasKey)
    ensures var r := LoadData(view, cache, network, publicBase);
      r.view.error.None? ==> BoundedCache.HasKey(r.cache, MarcasKey)
  {
    var ms := LoadResource(cache, network, publicBase, MarcasKey);
    if ms.outcome.Success? {
      var c := ms.cache;
      var e := BoundedCache.Evict(cache);
      assert c == BoundedCache.Put(e, MarcasKey, ms.outcome.value);
      assert c[|e|] == BoundedCache.Entry(MarcasKey, ms.outcome.value) && |c| == |e| + 1;
      var vs := LoadResource(c, network, publicBase, VeiculosKey);
      if vs.outcome.Success? && !BoundedCache.HasKey(c, VeiculosKey) {
        if |c| >= BoundedCache.Capacity {
          assert c[0].key != MarcasKey by {
            assert |e| > 0;
            assert c[|e|].key == MarcasKey;
          }
        }
        BoundedCache.SetKeepsOthers(c, VeiculosKey, vs.outcome.value, MarcasKey);
      }
    }
  }

  /** Reloading after a load without error, with both lists still cached,
      requests nothing and shows the same lists. */
  lemma ReloadServedFromCache(view: View, cache: Cache, network: Network, publicBase: string)
    requires BoundedCache.Valid(cache)
    ensures var r := LoadData(view, cache, network, publicBase);
      r.view.error.None? && BoundedCache.HasKey(r.cache, MarcasKey) ==>
        var again := LoadData(r.view, r.cache, network, publicBase);
        again.view == r.view && again.cache == r.cache && again.requests == []
  {
    var r := LoadData(view, cache, network, publicBase);
    if r.view.error.None? && BoundedCache.HasKey(r.cache, MarcasKey) {
      SuccessOutcome(view, cache, network, publicBase);
      BothCachedNoRequests(r.view, r.cache, network, publicBase);
    }
  }

  /** A cached brand list that is the oldest entry of a full cache is evicted
      by the vehicle insert of the same load, so the next load fetches it
      again. */
  lemma CachedMarcasEvictedByVeiculos(view: View, cache: Cache, network: Network, publicBase: string)
    requires BoundedCache.Valid(cache) && |cache| >= BoundedCache.Capacity
    requires cache[0].key == MarcasKey && !BoundedCache.HasKey(cache, VeiculosKey)
    requires TryFetch(network, ApiPath(VeiculosKey)).Success?
    ensures var r := LoadData(view, cache, network, publicBase);
      r.view.error.None? && !BoundedCache.HasKey(r.cache, MarcasKey)
  {
    var vs := LoadResource(cache, network, publicBase, VeiculosKey);
    assert vs.outcome.Success?;
  }

  /** Every key of the cache is one the page uses. */
  predicate PageKeysOnly(cache: Cache)
  {
    forall i :: 0 <= i < |cache| ==> cache[i].key == MarcasKey || cache[i].key == VeiculosKey
  }

  lemma LookupKeepsPageKeys(cache: Cache, network: Network, publicBase: string, key: string)
    requires BoundedCache.Valid(cache) && PageKeysOnly(cache)
    requires key == MarcasKey || key == VeiculosKey
    ensures PageKeysOnly(LoadResource(cache, network, publicBase, key).cache)
  {
    match BoundedCache.Get(cache, key)
    case Some(_) =>
    case None =>
      var f := FetchJsonWithFallback(network, publicBase, ApiPath(key));
      match f.result
      case Success(raw) =>
        var m := Normalize.ParseList(raw, [key]);
        BoundedCache.SetAddsOnlyItsKey(cache, key, m);
      case Failure(_) =>
  }

  /** The page's cache starts as `new Map()` and only ever receives the keys
      `marcas` and `veiculos`, so it holds at most two entries and the
      eviction at 10 never runs in the page. */
  lemma PageCacheNeverEvicts(view: View, cache: Cache, network: Network, publicBase: string)
    requires BoundedCache.Valid(cache) && PageKeysOnly(cache)
    ensures var r := LoadData(view, cache, network, publicBase);
      PageKeysOnly(r.cache) && |r.cache| <= 2 < BoundedCache.Capacity
  {
    var r := LoadData(view, cache, network, publicBase);
    var ms := LoadResource(cache, network, publicBase, MarcasKey);
    LookupKeepsPageKeys(cache, network, publicBase, MarcasKey);
    LookupKeepsPageKeys(ms.cache, network, publicBase, VeiculosKey);
    var vs := LoadResource(ms.cache, network, publicBase, VeiculosKey);
    assert r.cache == ms.cache || r.cache == vs.cache;
    BoundedCache.AtMostTwoEntries(r.cache, MarcasKey, VeiculosKey);
  }
}

=== FILE: normalize.dfy ===
/** Shape normalisation of an API response into a list (`parseList`). */
module Normalize {
  import opened Json

  /** The generic wrapper keys, tried before the caller's extra keys. */
  const GenericKeys: seq<string> := ["data", "items"]

  /** The candidate keys in the order they are tried. */
  function Candidates(keys: seq<string>): seq<string>
  {
    GenericKeys + keys
  }

  /** `Array.isArray(fields[k])`. */
  predicate ArrayAt(fields: map<string, Json>, k: string)
  {
    k in fields && fields[k].JArray?
  }

  /** The position of the first candidate holding an array, or `|cands|`
      when none does. */
  function FirstArrayKey(fields: map<string, Json>, cands: seq<string>): (i: nat)
    ensures i <= |cands|
    ensures i < |cands| ==> ArrayAt(fields, cands[i])
    ensures forall j :: 0 <= j < i ==> !ArrayAt(fields, cands[j])
    decreases |cands|
  {
    if |cands| == 0 then 0
    else if ArrayAt(fields, cands[0]) then 0
    else 1 + FirstArrayKey(fields, cands[1..])
  }

  /** `parseList(data, keys)`: an array is returned as it is; an object yields
      the array under its first candidate key that holds one; anything else,
      and an object with no such key, yields the empty list. */
  function ParseList(data: Json, keys: seq<string>): (r: seq<Json>)
    ensures data.JArray? ==> r == data.elems
    ensures !data.JArray? && !data.JObject? ==> r == []
    ensures data.JObject? ==>
      var cands := Candidates(keys);
      var i := FirstArrayKey(data.fields, cands);
      if i < |cands| then data.fields[cands[i]] == JArray(r) else r == []
  {
    match data
    case JArray(elems) => elems
    case JObject(fields) =>
      var cands := Candidates(keys);
      var i := FirstArrayKey(fields, cands);
      if i < |cands| then fields[cands[i]].elems else []
    case _ => []
  }

  /** Candidate `i` is the first one holding an array. */
  predicate FirstArrayAt(fields: map<string, Json>, cands: seq<string>, i: int)
  {
    && 0 <= i < |cands|
    && ArrayAt(fields, cands[i])
    && forall j :: 0 <= j < i ==> !ArrayAt(fields, cands[j])
  }

  /** Precedence: for an object, the result is the array under the first
      candidate holding one, whatever later candidates hold, and the empty
      list exactly when no candidate holds an array. */
  lemma ParseListObject(fields: map<string, Json>, keys: seq<string>)
    ensures forall i :: FirstArrayAt(fields, Candidates(keys), i) ==>
      JArray(ParseList(JObject(fields), keys)) == fields[Candidates(keys)[i]]
    ensures (forall k :: k in Candidates(keys) ==> !ArrayAt(fields, k)) ==>
      ParseList(JObject(fields), keys) == []
  {
    var cands := Candidates(keys);
    var first := FirstArrayKey(fields, cands);
    forall i | FirstArrayAt(fields, cands, i)
      ensures JArray(ParseList(JObject(fields), keys)) == fields[cands[i]]
    {
      assert first == i;
    }
    if forall k :: k in cands ==> !ArrayAt(fields, k) {
      if first < |cands| {
        assert cands[first] in cands;
      }
    }
  }

  /** An array under `data` wins over every other key, whatever extra keys
      the caller passes. */
  lemma DataWins(fields: map<string, Json>, keys: seq<string>)
    requires ArrayAt(fields, "data")
    ensures JArray(ParseList(JObject(fields), keys)) == fields["data"]
  {
    assert Candidates(keys)[0] == "data";
  }

  /** An array under `items` wins over the extra keys when `data` holds none. */
  lemma ItemsBeforeExtraKeys(fields: map<string, Json>, keys: seq<string>)
    requires !ArrayAt(fields, "data") && ArrayAt(fields, "items")
    ensures JArray(ParseList(JObject(fields), keys)) == fields["items"]
  {
    var cands := Candidates(keys);
    assert cands[0] == "data" && cands[1] == "items";
    assert FirstArrayAt(fields, cands, 1);
    ParseListObject(fields, keys);
  }

  /** Keys outside the candidate list (`rows`, `results`, ...) are never
      consulted: changing them leaves the result unchanged. */
  lemma {:induction false} OtherKeysIgnored(fields: map<string, Json>, keys: seq<string>, k: string, v: Json)
    requires k !in Candidates(keys)
    ensures ParseList(JObject(fields[k := v]), keys) == ParseList(JObject(fields), keys)
  {
    SameCandidatesSameIndex(fields, fields[k := v], Candidates(keys));
  }

  lemma {:induction false} SameCandidatesSameIndex(f: map<string, Json>, g: map<string, Json>, cands: seq<string>)
    requires forall c :: c in cands ==> (c in f <==> c in g) && (c in f ==> f[c] == g[c])
    ensures FirstArrayKey(f, cands) == FirstArrayKey(g, cands)
    decreases |cands|
  {
    if |cands| > 0 {
      assert cands[0] in cands;
      SameCandidatesSameIndex(f, g, cands[1..]);
    }
  }

  /** The scan over `a + b` finds the first array in `a`, and only when `a`
      has none does it go on to `b`. */
  lemma {:induction false} FirstArrayKeyAppend(fields: map<string, Json>, a: seq<string>, b: seq<string>)
    ensures FirstArrayKey(fields, a + b) ==
      if FirstArrayKey(fields, a) < |a| then FirstArrayKey(fields, a) else |a| + FirstArrayKey(fields, b)
    decreases |a|
  {
    if |a| > 0 {
      assert (a + b)[0] == a[0];
      assert (a + b)[1..] == a[1..] + b;
      FirstArrayKeyAppend(fields, a[1..], b);
    } else {
      assert a + b == b;
    }
  }

  /** Extra keys are fallbacks: appending keys never changes an array found
      under the earlier candidates, and when those hold none, the result is
      the first array among the appended keys, or `[]`. */
  lemma AppendedKeysAreFallbacks(fields: map<string, Json>, keys: seq<string>, more: seq<string>)
    ensures var cands := Candidates(keys);
      var found := FirstArrayKey(fields, cands);
      var later := FirstArrayKey(fields, more);
      && (found < |cands| ==> ParseList(JObject(fields), keys + more) == ParseList(JObject(fields), keys))
      && (found == |cands| && later < |more| ==> JArray(ParseList(JObject(fields), keys + more)) == fields[more[later]])
      && (found == |cands| && later == |more| ==> ParseList(JObject(fields), keys + more) == [])
  {
    EarlierArrayKept(fields, keys, more);
    LaterArrayUsed(fields, keys, more);
    NoArrayGivesEmpty(fields, keys, more);
  }

  lemma EarlierArrayKept(fields: map<string, Json>, keys: seq<string>, more: seq<string>)
    ensures var cands := Candidates(keys);
      FirstArrayKey(fields, cands) < |cands| ==>
        ParseList(JObject(fields), keys + more) == ParseList(JObject(fields), keys)
  {
    var cands := Candidates(keys);
    var found := FirstArrayKey(fields, cands);
    CandidatesAppend(keys, more);
    FirstArrayKeyAppend(fields, cands, more);
    if found < |cands| {
      FoundAt(fields, keys + more, found, cands[found]);
    }
  }

  lemma LaterArrayUsed(fields: map<string, Json>, keys: seq<string>, more: seq<string>)
    ensures var cands := Candidates(keys);
      var later := FirstArrayKey(fields, more);
      FirstArrayKey(fields, cands) == |cands| && later < |more| ==>
        JArray(ParseList(JObject(fields), keys + more)) == fields[more[later]]
  {
    var cands := Candidates(keys);
    var later := FirstArrayKey(fields, more);
    CandidatesAppend(keys, more);
    FirstArrayKeyAppend(fields, cands, more);
    if FirstArrayKey(fields, cands) == |cands| && later < |more| {
      FoundAt(fields, keys + more, |cands| + later, more[later]);
    }
  }

  lemma NoArrayGivesEmpty(fields: map<string, Json>, keys: seq<string>, more: seq<string>)
    ensures var cands := Candidates(keys);
      FirstArrayKey(fields, cands) == |cands| && FirstArrayKey(fields, more) == |more| ==>
        ParseList(JObject(fields), keys + more) == []
  {
    CandidatesAppend(keys, more);
    FirstArrayKeyAppend(fields, Candidates(keys), more);
  }

  lemma CandidatesAppend(keys: seq<string>, more: seq<string>)
    ensures Candidates(keys + more) == Candidates(keys) + more
  {
    assert GenericKeys + (keys + more) == (GenericKeys + keys) + more;
  }

  /** When the scan stops at candidate `i`, holding key `k`, the result is the
      array under `k`. */
  lemma FoundAt(fields: map<string, Json>, keys: seq<string>, i: nat, k: string)
    requires FirstArrayKey(fields, Candidates(keys)) == i < |Candidates(keys)|
    requires Candidates(keys)[i] == k
    ensures JArray(ParseList(JObject(fields), keys)) == fields[k]
  {
  }

}

=== FILE: wrappers.dfy ===
/** `Option` and `Result`, shared by the other modules. */
module Wrappers {

  /** `None` stands for JavaScript's `undefined` where a value may be absent. */
  datatype Option<+T> = None | Some(value: T)

  /** The outcome of a step that may throw: `Failure` carries what was thrown. */
  datatype Result<+R, +E> = Success(value: R) | Failure(error: E)
}
